=== FILE: README.md ===
# A verified model of the Lexer

This project models the `Lexer` class of a small JavaScript tokenizer for a
C-like scripting language. The lexer makes a single pass over a source string.
It returns an ordered list of `{type, value}` tokens of six kinds: `number`,
`identifier`, `keyword`, `string`, `operator` and `punctuation`. It throws on
the first character it cannot classify.

The model is functional. The input is a `string` (`seq<char>`) and the cursor
is a `nat`.

- `Chars` (chars.dfy) holds the character classes that the source tests with
  `/\s/`, `/\d/`, `/[a-zA-Z_]/` and its two `switch` lists.
- `Tokens` (tokens.dfy) holds the token kinds, tokens, the keyword set and the
  one error. `UnexpectedCharacter` carries the character and its position.
- `Readers` (readers.dfy) holds `readNumber`, `readIdentifierOrKeyword`,
  `readOperator`, `readString`, `skipSingleLineComment` and
  `skipMultiLineComment`. Each is a pure function from input and cursor to a
  token and the next cursor, or to the next cursor alone.
- `Scanner` (scanner.dfy) holds the dispatch loop of `tokenize`:
  - `Step` is one turn of the loop.
  - `Scan` is the whole loop, recursing on the cursor. It returns
    `Result<seq<Token>, LexError>`.
  - `Tokenize` is the while loop itself, proved equal to `Scan`.
- `Properties` (properties.dfy) proves the lexer's properties over all inputs.
- `Scenarios` (scenarios.dfy) fixes the output on a few concrete inputs. Each
  lemma takes the input as a parameter fixed by its precondition.
- `Findings` (findings.dfy) models the identifier loop as written. With an
  identifier at the end of the input, that loop does not terminate.

The cursor may end one or two places past the end of the input after an
unterminated string or comment, as in the source. The recursion measure is
`|input| - pos` when the cursor is inside the input and `0` otherwise, so the
overshoot does no harm.

## Model

| member | source | states |
|---|---|---|
| Readers.RunEnd | src/lexer.js:80-93 | The returned end bounds the longest run of digits, or of letters and underscores, that starts at the cursor: every character before it is in the class, it is at most the end of the input, and the character at it, if any, is not in the class. |
| Readers.IndexOf | src/lexer.js:106-120 | The string and line-comment loops stop at the first occurrence of the delimiter at or after their start, or at the end of the input when there is none. |
| Readers.CloseSearch | src/lexer.js:122-127 | The block-comment loop stops at the first `*` immediately followed by `/` at or after its start, or at the end of the input. |
| Readers.ReadNumber | src/lexer.js:80-86 | A number's text is the slice from the cursor to the end of the maximal digit run. It holds only digits and is not followed by a digit, and it is non-empty when the cursor is on a digit. |
| Readers.ReadIdentifierOrKeyword | src/lexer.js:88-96 | The text is the maximal run of letters and underscores at the cursor, as an exact slice. Its kind is `keyword` exactly when the text is in the reserved set, and `identifier` otherwise. |
| Readers.ReadOperator | src/lexer.js:97-105 | An operator is one or two characters long. It is two exactly when the lead is one of `= ! < >` and the next character exists and is `=`. Its text is that slice. |
| Readers.ReadString | src/lexer.js:106-114 | A string's text is the input strictly between the opening quote and the first later occurrence of the same quote. It holds no such quote. Without a closing quote the text runs to the end of the input and the cursor ends one past it. |
| Readers.SkipLineComment | src/lexer.js:115-120 | The cursor moves to just after the first newline at or after the comment start, with no newline in between, or to one past the end of the input. |
| Readers.SkipBlockComment | src/lexer.js:122-127 | The cursor moves to just after the first `*/` whose star is at or after the opening slash, or to two past the end of the input. |
| Scanner.Step | src/lexer.js:9-75 | One turn of the loop always advances the cursor unless it fails. It fails exactly on a character outside every class, with that character and its position. Every emitted token is well formed and is an exact slice of the input at or after the cursor. |
| Scanner.Scan | src/lexer.js:8-78 | Every token of a successful scan is well formed: digits only for numbers, letters only for identifiers, keywords in the reserved set, operators and punctuation from their lists. A failure names a position inside the input that holds the reported character, and that character is unrecognised. |
| Scanner.Tokenize | src/lexer.js:8-78 | The while loop that accumulates tokens returns exactly what `Scan` computes from position 0, the first error included. |
| Properties.StepDispatch | src/lexer.js:13-72 | The class of the character under the cursor decides the branch: whitespace or a comment start skips; a digit, letter, quote, operator lead or punctuation character emits a token of the matching kind. |
| Properties.OperatorLength | src/lexer.js:44-60 | At an operator lead that does not start a comment, the token has two characters exactly when the lead is `=`, `!`, `<` or `>` and `=` follows. Otherwise it is the lead alone, so `&&` and a doubled `|` each give two tokens. |
| Properties.OperatorStep | src/lexer.js:44-59 | At an operator lead that does not start a comment, the loop emits what the operator reader returns. |
| Properties.PunctuationToken | src/lexer.js:61-71 | A punctuation character becomes a token holding just that character, and the cursor moves by one. |
| Properties.WhitespaceSkipped | src/lexer.js:13-16 | A whitespace character adds no token. Scanning continues at the next position. |
| Properties.LoneSlash | src/lexer.js:28-47 | A `/` followed by neither `/` nor `*` is the division operator. This includes a `/` that is the last character, because `peek` yields nothing there. |
| Properties.CommentStartIsSlice | src/lexer.js:28-36 | The two comment tests, `char === '/'` with `peek()` equal to `/` or `*`, pass exactly when the two characters at the cursor are `//` or `/*`. With a single character left they never pass. |
| Properties.FinalSlashIsDivision | src/lexer.js:129-131 | On the last character `peek` yields `null`, so a final `/` starts no comment: it is the division operator and the last token of the scan. |
| Properties.ScanEmit | src/lexer.js:18-70 | When a turn pushes a token and the rest of the loop yields the tokens `rest`, the whole scan yields that token followed by `rest`. |
| Properties.ScanPastEnd | src/lexer.js:9 | Once the cursor is at or past the end of the input, the loop ends with the empty token list. |
| Properties.WhitespaceOnly | src/lexer.js:13-16 | Input made only of whitespace yields an empty token list. |
| Properties.RecognizedInputScans | src/lexer.js:43-75 | The scan can fail only on an unrecognised character. An input whose characters are all recognised therefore always scans. |
| Properties.ScanSlices | src/lexer.js:81-113 | Each token's text is an exact slice of the input. The slices appear in left-to-right order without overlapping, so tokens come out in input order. |
| Properties.NumberIsMaximalRun | src/lexer.js:18-20 | Given where a digit run ends, the loop emits exactly that run as a number and resumes there. So `3.14` gives `3`. |
| Properties.WordIsMaximalRun | src/lexer.js:23-25 | Given where a run of letters and underscores ends, the loop emits exactly that run and resumes there. The run is a keyword when it is reserved and an identifier otherwise, so `x1` gives identifier `x`. |
| Properties.RunEndIsUnique | src/lexer.js:80-92 | The end of a maximal run is determined by the run: any position bounding a maximal run is the one the loop finds. |
| Properties.StringUpToClosingQuote | src/lexer.js:38-41 | A quote starts a string up to the first later occurrence of the same quote, with no escapes. Scanning resumes after the closing quote. |
| Properties.UnterminatedString | src/lexer.js:106-114 | A string with no closing quote takes the rest of the input as its text. It is the last token, and there is no error. |
| Properties.LineCommentResumesAfterNewline | src/lexer.js:28-31 | A `//` comment emits nothing. Scanning resumes just after its first newline. |
| Properties.LineCommentToEnd | src/lexer.js:115-120 | A `//` comment with no newline after it ends the scan with no further tokens. |
| Properties.BlockCommentResumesAfterClose | src/lexer.js:33-36 | A `/*` comment emits nothing. Scanning resumes after the first closing pair whose star is at or after the opening slash. |
| Properties.SlashStarSlashIsComment | src/lexer.js:122-126 | Because the search starts at the opening slash, `/*/` is a complete comment. |
| Properties.UnterminatedBlockComment | src/lexer.js:122-127 | A `/*` comment that is never closed silently consumes the rest of the input. |
| Properties.UnexpectedCharacterAborts | src/lexer.js:73-74 | An unrecognised character under the cursor stops the scan with an error that names the character, whatever follows it. |
| Scenarios.DoubleQuotedString | src/lexer.js:106-114 | The input `"hi"` (with its quotes) scans to one string token `hi`. |
| Scenarios.AtSignIsAnError | src/lexer.js:73-74 | `@` fails with the unexpected character `@` at position 0. |
| Scenarios.DigitEndsIdentifier | src/lexer.js:88-96 | `x1` scans to identifier `x` then number `1`. |
| Scenarios.DecimalPointSplitsNumber | src/lexer.js:80-86 | `3.14` scans to number `3`, punctuation `.`, number `14`. |
| Scenarios.LogicalAndIsTwoOperators | src/lexer.js:97-105 | `&&` scans to two one-character `&` operators. |
| Scenarios.EqualityIsOneOperator | src/lexer.js:97-105 | `==` scans to the single operator `==`. |
| Scenarios.ReservedWordIsKeyword | src/lexer.js:6 | `let;` scans to keyword `let` then punctuation `;`. |
| Scenarios.TrailingSlashIsDivision | src/lexer.js:129-131 | `1/` scans to number `1` then operator `/`. |
| Scenarios.SlashStarSlashThenCode | src/lexer.js:122-127 | `/*/x;` scans to identifier `x` then punctuation `;`, the `/*/` being a whole comment. |
| Scenarios.CommentThenCode | src/lexer.js:115-120 | A line comment followed by a newline and `x;` scans to identifier `x` then punctuation `;`. |
| Scenarios.DeclarationTokens | src/lexer.js:9-75 | `let x = 42;` scans to keyword `let`, identifier `x`, operator `=`, number `42` and punctuation `;`, with the spaces skipped. |
| Findings.RunAsWritten | src/lexer.js:90-92 | This is the run loop as written, given a number of iterations. When it stops, it stops at the first position where the JavaScript guard fails. |
| Findings.GuardInRange | src/lexer.js:82-90 | Inside the input, `test` sees `this.input[this.position]` (`JsCharAt`) as the one-character string at the cursor. The guard as written then holds exactly when that character is in the class, as the bounded `RunEnd` assumes. |
| Findings.GuardPastEnd | src/lexer.js:82-90 | Past the end of the input, `test` converts `undefined` (`JsCharAt`) to the string "undefined". So the letter test passes there and the digit test fails. |
| Findings.IdentifierAtEndNeverStops | src/lexer.js:90-92 | When a run of letters reaches the end of the input, the identifier loop as written is still running after any number of iterations. |
| Findings.SingleLetterNeverStops | src/lexer.js:90-92 | On the input `x` the identifier loop as written never stops. |
| Findings.RunAsWrittenAgrees | src/lexer.js:80-92 | Given enough iterations, the loop as written stops where the bounded run ends whenever that is before the end of the input, and always for digits. `readNumber` is therefore unaffected. |

## Findings

| source | as written | input that shows it | evidently intended | confidence | as-written member | corrected member |
|---|---|---|---|---|---|---|
| src/lexer.js:90 | The identifier loop tests the character at the cursor even past the end of the input. There it is `undefined`, which the regular expression test converts to the string "undefined"; that string holds letters, so the guard stays true and the loop never ends. | `x`, or `a && b`: any input whose scan reaches a run of letters and underscores that extends to the end of the input | stop the run at the end of the input, as `readNumber` effectively does | not executed | Findings.IdentifierAtEndNeverStops | Readers.ReadIdentifierOrKeyword |

The rest of the model uses the corrected, bounded run `Readers.RunEnd`.
`Findings.RunAsWrittenAgrees` shows that the two readings agree everywhere
except on an identifier that ends the input.

## Left out

- Readers.ReadIdentifierOrKeyword: does not model the non-termination of the source's loop when the identifier ends the input. It stops at the end instead, and the Findings section covers the difference.
- src/main.js is not part of this model. It is a driver that tokenizes one fixed string and prints the result.
- The error message text is not modelled, only its content. The error is a value carrying the character; it also carries the position, which the source's message does not include.
- On an error the source leaves the tokens pushed so far in `this.tokens`. The model returns only the error.
- The `this.tokens` array is reused across repeated `tokenize` calls on one instance. The model performs one scan per input. Running it twice on the same input gives the same tokens because `Scan` is a function.
- JavaScript strings are sequences of UTF-16 code units, while a Dafny `char` is a Unicode scalar value. A character outside the Basic Multilingual Plane is one `char` here but two code units in the source. Both fail as unexpected, but the source reports the high surrogate and the model the whole character. Lone surrogates cannot be represented.
- `/\s/` is modelled as a fixed set: tab, LF, vertical tab, form feed, CR, the Unicode space separators (U+0020, U+00A0, U+1680, U+2000–U+200A, U+202F, U+205F, U+3000), U+2028, U+2029 and U+FEFF. A JavaScript engine built on a different Unicode version may differ.
- The comment at src/lexer.js:100 says `&&` and `||` are combined, but the code does not combine them. The model follows the code.
- `x == 10` is not stated as a lemma, because each step of a concrete scan is costly to prove. The per-step lemmas (`WordIsMaximalRun`, `NumberIsMaximalRun`, `OperatorLength`, `WhitespaceSkipped`, `PunctuationToken`) cover each of its steps. `a && b` and `// note\nlet y` are not stated either. The source as written never returns on them: both end in an identifier, whose loop does not stop at the end of the input (src/lexer.js:90, see Findings). The corrected scan yields `a`, `&`, `&`, `b` and `let`, `y`, and `LogicalAndIsTwoOperators` and `CommentThenCode` state the same steps on inputs that end in punctuation or a single operator.

=== FILE: chars.dfy ===
/**
  The character classes the lexer dispatches on. The source tests them with
  the regular expressions `/\s/`, `/\d/` and `/[a-zA-Z_]/` and with two
  `switch` lists; here each is an explicit predicate on one character.
 */
module Chars {

  /** `/\s/` of ECMAScript: the WhiteSpace code points (tab, vertical tab,
      form feed, the space separators of Unicode category Zs and the byte
      order mark U+FEFF) and the LineTerminator code points (LF, CR, U+2028,
      U+2029). */
  predicate IsWhitespace(c: char) {
    || c == '\t' || c == '\n' || c == '\U{000B}' || c == '\U{000C}' || c == '\r'
    || c == ' ' || c == '\U{00A0}' || c == '\U{1680}'
    || ('\U{2000}' <= c <= '\U{200A}')
    || c == '\U{2028}' || c == '\U{2029}' || c == '\U{202F}' || c == '\U{205F}'
    || c == '\U{3000}' || c == '\U{FEFF}'
  }

  /** `/\d/`: the ASCII decimal digits only. */
  predicate IsDigit(c: char) {
    '0' <= c <= '9'
  }

  /** `/[a-zA-Z_]/`: an ASCII letter or the underscore. */
  predicate IsIdentChar(c: char) {
    ('a' <= c <= 'z') || ('A' <= c <= 'Z') || c == '_'
  }

  predicate IsQuote(c: char) {
    c == '"' || c == '\''
  }

  /** The characters that start an operator token. */
  predicate IsOperatorLead(c: char) {
    || c == '+' || c == '-' || c == '*' || c == '/' || c == '%'
    || c == '=' || c == '<' || c == '>' || c == '!'
    || c == '&' || c == '|' || c == '^' || c == '~' || c == '?' || c == ':'
  }

  /** The operator leads that may be followed by `=` to form a two-character operator. */
  predicate IsCompoundLead(c: char) {
    c == '=' || c == '!' || c == '<' || c == '>'
  }

  predicate IsPunctuation(c: char) {
    || c == '(' || c == ')' || c == '{' || c == '}' || c == '[' || c == ']'
    || c == ',' || c == '.' || c == ';'
  }

  /** A character the dispatch loop accepts; every other character is an error. */
  predicate IsRecognized(c: char) {
    IsWhitespace(c) || IsDigit(c) || IsIdentChar(c) || IsQuote(c)
    || IsOperatorLead(c) || IsPunctuation(c)
  }
}

=== FILE: findings.dfy ===
/**
  The run loops of `readNumber` and `readIdentifierOrKeyword` as written.
  Their guard applies a regular expression to `this.input[this.position]`,
  which past the end of the input is `undefined`; `RegExp.prototype.test`
  converts it to the string "undefined" and searches it. That string holds
  letters but no digit, so the identifier loop never stops once its run
  reaches the end of the input, while the number loop stops there. The rest
  of the model uses the bounded `Readers.RunEnd` instead.
 */
module Findings {
  import opened Wrappers
  import opened Chars
  import opened Readers

  /** `input[k]` as the string `test` searches: the character when `k` is in
      range, and "undefined" past the end. */
  function JsCharAt(input: string, k: nat): (s: string)
    ensures k < |input| ==> s == [input[k]]
    ensures k >= |input| ==> s == "undefined"
  {
    if k < |input| then [input[k]] else "undefined"
  }

  /** `test` with the one-class pattern `/\d/` or `/[a-zA-Z_]/`: some
      character of `s` is in the class (the pattern is not anchored). */
  predicate ClassTest(s: string, cls: CharClass) {
    exists i :: 0 <= i < |s| && InClass(s[i], cls)
  }

  /** The loop guard as written, at position `k`. */
  predicate GuardAsWritten(input: string, k: nat, cls: CharClass) {
    ClassTest(JsCharAt(input, k), cls)
  }

  /** The run loop as written, allowed `fuel` iterations: `Some(e)` when the
      guard fails at `e`, `None` when the loop is still running. */
  function RunAsWritten(input: string, pos: nat, cls: CharClass, fuel: nat): (r: Option<nat>)
    ensures r.Some? ==> pos <= r.value <= pos + fuel && !GuardAsWritten(input, r.value, cls)
    ensures r.Some? ==> forall k :: pos <= k < r.value ==> GuardAsWritten(input, k, cls)
    decreases fuel
  {
    if !GuardAsWritten(input, pos, cls) then Some(pos)
    else if fuel == 0 then None
    else RunAsWritten(input, pos + 1, cls, fuel - 1)
  }

  /** Past the end of the input the identifier guard holds, the digit guard does not. */
  lemma GuardPastEnd(input: string, k: nat)
    requires k >= |input|
    ensures GuardAsWritten(input, k, Letters)
    ensures !GuardAsWritten(input, k, Digits)
  {
    var s := JsCharAt(input, k);
    assert s == "undefined";
    assert InClass(s[0], Letters);
  }

  /** Inside the input the guard as written is the bounded class test. */
  lemma GuardInRange(input: string, k: nat, cls: CharClass)
    requires k < |input|
    ensures GuardAsWritten(input, k, cls) <==> InClass(input[k], cls)
  {
    assert JsCharAt(input, k)[0] == input[k];
  }

  /** The identifier loop as written never stops when its run of letters
      reaches the end of the input, however many iterations it is given. */
  lemma {:induction false} IdentifierAtEndNeverStops(input: string, pos: nat, fuel: nat)
    requires forall k :: pos <= k < |input| ==> IsIdentChar(input[k])
    ensures RunAsWritten(input, pos, Letters, fuel) == None
    decreases fuel
  {
    if pos < |input| {
      GuardInRange(input, pos, Letters);
    } else {
      GuardPastEnd(input, pos);
    }
    if fuel > 0 {
      IdentifierAtEndNeverStops(input, pos + 1, fuel - 1);
    }
  }

  /** The smallest instance: the input "x" alone. */
  lemma {:induction false} SingleLetterNeverStops(fuel: nat)
    ensures RunAsWritten("x", 0, Letters, fuel) == None
  {
    IdentifierAtEndNeverStops("x", 0, fuel);
  }

  /** Given enough iterations, the loop as written stops where the bounded
      run ends whenever that is before the end of the input, and always for
      digits: the two differ only for identifiers that end the input. */
  lemma {:induction false} RunAsWrittenAgrees(input: string, pos: nat, cls: CharClass, fuel: nat)
    requires pos <= |input|
    requires cls == Digits || RunEnd(input, pos, cls) < |input|
    requires fuel >= RunEnd(input, pos, cls) - pos
    ensures RunAsWritten(input, pos, cls, fuel) == Some(RunEnd(input, pos, cls))
    decreases fuel
  {
    if pos < |input| {
      GuardInRange(input, pos, cls);
    } else {
      GuardPastEnd(input, pos);
    }
    if pos < |input| && InClass(input[pos], cls) {
      RunAsWrittenAgrees(input, pos + 1, cls, fuel - 1);
    }
  }
}

=== FILE: properties.dfy ===
/** Properties of the whole scan, proved over all inputs. */
module Properties {
  import opened Wrappers
  import opened Chars
  import opened Tokens
  import opened Readers
  import opened Scanner

  /** The dispatch order is immaterial apart from a `/` that starts a
      comment: the character classes are disjoint, so otherwise the class of
      the character under the cursor alone decides what one turn of the loop
      does. */
  lemma StepDispatch(input: string, pos: nat)
    requires pos < |input|
    ensures Step(input, pos).Skip? <==> IsWhitespace(input[pos]) || IsCommentStart(input, pos)
    ensures Step(input, pos).Emit? && Step(input, pos).token.kind == Number <==> IsDigit(input[pos])
    ensures Step(input, pos).Emit? && Step(input, pos).token.kind in {Identifier, Keyword} <==> IsIdentChar(input[pos])
    ensures Step(input, pos).Emit? && Step(input, pos).token.kind == String <==> IsQuote(input[pos])
    ensures Step(input, pos).Emit? && Step(input, pos).token.kind == Operator
            <==> IsOperatorLead(input[pos]) && !IsCommentStart(input, pos)
    ensures Step(input, pos).Emit? && Step(input, pos).token.kind == Punctuation <==> IsPunctuation(input[pos])
  {
  }

  /** An operator token is two characters long exactly when its lead is one
      of `= ! < >` and the next character is `=`; so `&&` and `||` are two
      one-character operators. */
  lemma OperatorLength(input: string, pos: nat)
    requires pos < |input| && IsOperatorLead(input[pos]) && !IsCommentStart(input, pos)
    ensures Step(input, pos).Emit? && Step(input, pos).token.kind == Operator
    ensures |Step(input, pos).token.text| == 2 <==> IsCompoundLead(input[pos]) && PeekIs(input, pos, '=')
    ensures |Step(input, pos).token.text| == 1 || |Step(input, pos).token.text| == 2
    ensures IsCompoundLead(input[pos]) && PeekIs(input, pos, '=')
            ==> Step(input, pos) == Emit(Token(Operator, [input[pos], '=']), pos, pos + 2, pos + 2)
    ensures !(IsCompoundLead(input[pos]) && PeekIs(input, pos, '='))
            ==> Step(input, pos) == Emit(Token(Operator, [input[pos]]), pos, pos + 1, pos + 1)
  {
    var c := input[pos];
    var r := ReadOperator(input, pos);
    OperatorStep(input, pos);
    if r.next == pos + 2 {
      assert r.token.text == [c, '='];
    } else {
      assert r.token.text == [c];
    }
  }

  lemma OperatorStep(input: string, pos: nat)
    requires pos < |input| && IsOperatorLead(input[pos]) && !IsCommentStart(input, pos)
    ensures Step(input, pos) == Emit(ReadOperator(input, pos).token, pos, ReadOperator(input, pos).next, ReadOperator(input, pos).next)
  {
    var c := input[pos];
    assert !IsWhitespace(c) && !IsDigit(c) && !IsIdentChar(c) && !IsQuote(c);
  }

  /** A punctuation character is a token by itself. */
  lemma PunctuationToken(input: string, pos: nat)
    requires pos < |input| && IsPunctuation(input[pos])
    ensures Step(input, pos) == Emit(Token(Punctuation, [input[pos]]), pos, pos + 1, pos + 1)
  {
    var c := input[pos];
    assert !IsWhitespace(c) && !IsDigit(c) && !IsIdentChar(c) && !IsQuote(c) && !IsOperatorLead(c);
    assert input[pos..pos + 1] == [c];
  }

  /** Whitespace is skipped one character at a time and emits nothing. */
  lemma WhitespaceSkipped(input: string, pos: nat)
    requires pos < |input| && IsWhitespace(input[pos])
    ensures Scan(input, pos) == Scan(input, pos + 1)
  {
  }

  /** A `/` followed by neither `/` nor `*`, or standing last, is the division operator. */
  lemma LoneSlash(input: string, pos: nat)
    requires pos < |input| && input[pos] == '/'
    requires !PeekIs(input, pos, '/') && !PeekIs(input, pos, '*')
    ensures Step(input, pos) == Emit(Token(Operator, "/"), pos, pos + 1, pos + 1)
  {
  }

  /** A turn of the loop that pushes a token puts it in front of the tokens
      the rest of the loop produces. */
  lemma ScanEmit(input: string, pos: nat, rest: seq<Token>)
    requires pos < |input| && Step(input, pos).Emit?
    requires Scan(input, Step(input, pos).next) == Success(rest)
    ensures Scan(input, pos) == Success([Step(input, pos).token] + rest)
  {
  }

  /** Once the cursor is at or past the end of the input the scan yields no tokens. */
  lemma ScanPastEnd(input: string, pos: nat)
    requires pos >= |input|
    ensures Scan(input, pos) == Success([])
  {
  }

  /** Input made only of whitespace yields no tokens. */
  lemma {:induction false} WhitespaceOnly(input: string, pos: nat)
    requires forall k :: pos <= k < |input| ==> IsWhitespace(input[k])
    ensures Scan(input, pos) == Success([])
    decreases if pos < |input| then |input| - pos else 0
  {
    if pos < |input| {
      WhitespaceOnly(input, pos + 1);
    }
  }

  /** The scan fails only on an unrecognized character, so input made only of
      recognized characters always scans. */
  lemma {:induction false} RecognizedInputScans(input: string, pos: nat)
    requires forall k :: pos <= k < |input| ==> IsRecognized(input[k])
    ensures Scan(input, pos).Success?
    decreases if pos < |input| then |input| - pos else 0
  {
    if pos < |input| {
      match Step(input, pos)
      case Skip(next) => RecognizedInputScans(input, next);
      case Emit(_, _, _, next) => RecognizedInputScans(input, next);
      case Fail(_) => assert false;
    }
  }

  /** Where the text of each emitted token starts in the input. */
  ghost function Origins(input: string, pos: nat): seq<nat>
    decreases if pos < |input| then |input| - pos else 0
  {
    if pos >= |input| then
      []
    else
      match Step(input, pos)
      case Skip(next) => Origins(input, next)
      case Emit(_, at, _, next) => [at] + Origins(input, next)
      case Fail(_) => []
  }

  /** `t`'s text is the slice of `input` that starts at `k`. */
  predicate SliceAt(input: string, k: nat, t: Token) {
    k + |t.text| <= |input| && t.text == input[k..k + |t.text|]
  }

  /** Token `i` has as text the slice of `input` at `o[i]`, at or after `pos`,
      and each slice ends before the next one starts. */
  ghost predicate SlicedFrom(input: string, pos: nat, ts: seq<Token>, o: seq<nat>) {
    && |o| == |ts|
    && (forall i :: 0 <= i < |ts| ==> pos <= o[i] && SliceAt(input, o[i], ts[i]))
    && (forall i :: 0 <= i < |ts| - 1 ==> o[i] < o[i + 1] && o[i] + |ts[i].text| <= o[i + 1])
  }

  lemma SlicedCons(input: string, pos: nat, t: Token, at: nat, end: nat, next: nat, ts: seq<Token>, o: seq<nat>)
    requires pos <= at <= end <= |input| && at < next && end <= next
    requires t.text == input[at..end]
    requires SlicedFrom(input, next, ts, o)
    ensures SlicedFrom(input, pos, [t] + ts, [at] + o)
  {
    var ts', o' := [t] + ts, [at] + o;
    assert SliceAt(input, at, t);
    forall i | 0 <= i < |ts'|
      ensures pos <= o'[i] && SliceAt(input, o'[i], ts'[i])
    {
      if i > 0 {
        assert ts'[i] == ts[i - 1] && o'[i] == o[i - 1];
      }
    }
    forall i | 0 <= i < |ts'| - 1
      ensures o'[i] < o'[i + 1] && o'[i] + |ts'[i].text| <= o'[i + 1]
    {
      if i > 0 {
        assert ts'[i] == ts[i - 1] && o'[i] == o[i - 1] && o'[i + 1] == o[i];
      }
    }
  }

  /** Each token's text is an exact slice of the input, and the slices come
      in left-to-right order without overlapping. */
  lemma {:induction false} ScanSlices(input: string, pos: nat)
    requires Scan(input, pos).Success?
    ensures SlicedFrom(input, pos, Scan(input, pos).value, Origins(input, pos))
    decreases if pos < |input| then |input| - pos else 0
  {
    if pos < |input| {
      match Step(input, pos)
      case Skip(next) =>
        ScanSlices(input, next);
      case Emit(t, at, end, next) =>
        ScanSlices(input, next);
        SlicedCons(input, pos, t, at, end, next, Scan(input, next).value, Origins(input, next));
    }
  }

  /** A number is the maximal run of digits at the cursor: given where the
      run ends, the loop emits exactly that run and resumes there. */
  lemma NumberIsMaximalRun(input: string, pos: nat, e: nat)
    requires pos < e <= |input|
    requires forall k :: pos <= k < e ==> IsDigit(input[k])
    requires e == |input| || !IsDigit(input[e])
    ensures Step(input, pos) == Emit(Token(Number, input[pos..e]), pos, e, e)
  {
    RunEndIsUnique(input, pos, e, Digits);
  }

  /** An identifier-shaped lexeme is the maximal run of letters and
      underscores at the cursor, a keyword exactly when it is reserved. */
  lemma WordIsMaximalRun(input: string, pos: nat, e: nat)
    requires pos < e <= |input|
    requires forall k :: pos <= k < e ==> IsIdentChar(input[k])
    requires e == |input| || !IsIdentChar(input[e])
    ensures input[pos..e] in Keywords ==> Step(input, pos) == Emit(Token(Keyword, input[pos..e]), pos, e, e)
    ensures input[pos..e] !in Keywords ==> Step(input, pos) == Emit(Token(Identifier, input[pos..e]), pos, e, e)
  {
    RunEndIsUnique(input, pos, e, Letters);
  }

  lemma RunEndIsUnique(input: string, pos: nat, e: nat, cls: CharClass)
    requires pos <= e <= |input|
    requires forall k :: pos <= k < e ==> InClass(input[k], cls)
    requires e == |input| || !InClass(input[e], cls)
    ensures RunEnd(input, pos, cls) == e
  {
  }

  /** A string runs from its opening quote to the first later occurrence of
      the same quote, with no escapes; the loop resumes after the closing quote. */
  lemma StringUpToClosingQuote(input: string, pos: nat, close: nat)
    requires pos < close < |input| && IsQuote(input[pos]) && input[close] == input[pos]
    requires forall k :: pos < k < close ==> input[k] != input[pos]
    ensures Step(input, pos) == Emit(Token(String, input[pos + 1..close]), pos + 1, close, close + 1)
  {
  }

  /** A string with no closing quote takes the rest of the input as its text
      and is the last token, without an error. */
  lemma UnterminatedString(input: string, pos: nat)
    requires pos < |input| && IsQuote(input[pos])
    requires forall k :: pos < k < |input| ==> input[k] != input[pos]
    ensures Scan(input, pos) == Success([Token(String, input[pos + 1..])])
  {
    var ts := [Token(String, input[pos + 1..])];
    assert Step(input, pos) == Emit(ts[0], pos + 1, |input|, |input| + 1) by {
      assert IndexOf(input, pos + 1, input[pos]) == |input|;
    }
    ScanPastEnd(input, |input| + 1);
    ScanEmit(input, pos, []);
    assert [ts[0]] + [] == ts;
  }

  /** A `//` comment emits nothing; scanning resumes after its first newline. */
  lemma LineCommentResumesAfterNewline(input: string, pos: nat, nl: nat)
    requires pos + 1 < |input| && input[pos] == '/' && input[pos + 1] == '/'
    requires pos < nl < |input| && input[nl] == '\n'
    requires forall k :: pos <= k < nl ==> input[k] != '\n'
    ensures Scan(input, pos) == Scan(input, nl + 1)
  {
    assert Step(input, pos) == Skip(nl + 1) by {
      assert IndexOf(input, pos, '\n') == nl;
    }
  }

  /** A `//` comment without a newline after it ends the scan. */
  lemma LineCommentToEnd(input: string, pos: nat)
    requires pos + 1 < |input| && input[pos] == '/' && input[pos + 1] == '/'
    requires forall k :: pos <= k < |input| ==> input[k] != '\n'
    ensures Scan(input, pos) == Success([])
  {
  }

  /** A block comment emits nothing; scanning resumes after the first `*` `/`
      pair whose star is at or after the opening slash. */
  lemma BlockCommentResumesAfterClose(input: string, pos: nat, star: nat)
    requires pos + 1 < |input| && input[pos] == '/' && input[pos + 1] == '*'
    requires pos <= star && ClosesAt(input, star)
    requires forall k :: pos <= k < star ==> !ClosesAt(input, k)
    ensures Scan(input, pos) == Scan(input, star + 2)
  {
    assert Step(input, pos) == Skip(star + 2) by {
      assert CloseSearch(input, pos) == star;
    }
  }

  /** Because the search for the closing pair starts at the opening slash,
      the three characters slash, star, slash are a complete comment. */
  lemma SlashStarSlashIsComment(input: string, pos: nat)
    requires pos + 2 < |input| && input[pos] == '/' && input[pos + 1] == '*' && input[pos + 2] == '/'
    ensures Scan(input, pos) == Scan(input, pos + 3)
  {
    BlockCommentResumesAfterClose(input, pos, pos + 1);
  }

  /** A block comment that is never closed silently ends the scan. */
  lemma UnterminatedBlockComment(input: string, pos: nat)
    requires pos + 1 < |input| && input[pos] == '/' && input[pos + 1] == '*'
    requires forall k :: pos <= k < |input| ==> !ClosesAt(input, k)
    ensures Scan(input, pos) == Success([])
  {
  }

  /** The scan stops at the first unrecognized character it dispatches on,
      reporting that character and its position. */
  lemma UnexpectedCharacterAborts(input: string, pos: nat)
    requires pos < |input| && !IsRecognized(input[pos])
    ensures Scan(input, pos) == Failure(UnexpectedCharacter(input[pos], pos))
  {
  }

  // The two `peek` tests of the loop recognise a comment exactly when the
  // two characters at the cursor are a slash followed by a slash or a star;
  // with one character left there is no comment.
  lemma CommentStartIsSlice(input: string, pos: nat)
    requires pos < |input|
    ensures IsCommentStart(input, pos)
            <==> pos + 2 <= |input| && (input[pos..pos + 2] == "//" || input[pos..pos + 2] == "/*")
  {
    if pos + 2 <= |input| {
      assert input[pos..pos + 2] == [input[pos], input[pos + 1]];
    }
  }

  /** A `/` that is the last character of the input is the division operator:
      `peek` yields nothing there, so neither comment test passes. */
  lemma FinalSlashIsDivision(input: string)
    requires |input| > 0 && input[|input| - 1] == '/'
    ensures Step(input, |input| - 1) == Emit(Token(Operator, "/"), |input| - 1, |input|, |input|)
    ensures Scan(input, |input| - 1) == Success([Token(Operator, "/")])
  {
    var pos := |input| - 1;
    assert Peek(input, pos) == None;
    LoneSlash(input, pos);
    ScanPastEnd(input, |input|);
    ScanEmit(input, pos, []);
    assert [Token(Operator, "/")] + [] == [Token(Operator, "/")];
  }
}

=== FILE: readers.dfy ===
/**
  The routines the dispatch loop delegates to. Each takes the input and the
  cursor and returns the token it read with the new cursor, or, for the
  comment skippers, only the new cursor. As in the source, the cursor may end
  one or two places past the end of the input after an unterminated string
  or comment.
 */
module Readers {
  import opened Chars
  import opened Tokens

  /** A token together with the cursor just after its lexeme. */
  datatype Read = Read(token: Token, next: nat)

  datatype CharClass = Digits | Letters

  predicate InClass(c: char, cls: CharClass) {
    match cls
    case Digits => IsDigit(c)
    case Letters => IsIdentChar(c)
  }

  /** The end of the longest run of `cls` characters that starts at `pos`,
      stopping at the end of the input. */
  function RunEnd(input: string, pos: nat, cls: CharClass): (e: nat)
    requires pos <= |input|
    ensures pos <= e <= |input|
    ensures forall k :: pos <= k < e ==> InClass(input[k], cls)
    ensures e == |input| || !InClass(input[e], cls)
    decreases |input| - pos
  {
    if pos < |input| && InClass(input[pos], cls) then RunEnd(input, pos + 1, cls) else pos
  }

  /** The first position at or after `from` that holds `c`, or the end of the input. */
  function IndexOf(input: string, from: nat, c: char): (i: nat)
    requires from <= |input|
    ensures from <= i <= |input|
    ensures forall k :: from <= k < i ==> input[k] != c
    ensures i < |input| ==> input[i] == c
    decreases |input| - from
  {
    if from == |input| || input[from] == c then from else IndexOf(input, from + 1, c)
  }

  // A `*/` starts at `k`.
  predicate ClosesAt(input: string, k: nat) {
    k + 1 < |input| && input[k] == '*' && input[k + 1] == '/'
  }

  // The first position at or after `from` where a `*/` starts, or the end of the input.
  function CloseSearch(input: string, from: nat): (i: nat)
    requires from <= |input|
    ensures from <= i <= |input|
    ensures forall k :: from <= k < i ==> !ClosesAt(input, k)
    ensures i < |input| ==> ClosesAt(input, i)
    decreases |input| - from
  {
    if from == |input| || ClosesAt(input, from) then from else CloseSearch(input, from + 1)
  }

  /** `readNumber`: the maximal run of decimal digits at the cursor. */
  function ReadNumber(input: string, pos: nat): (r: Read)
    requires pos <= |input|
    ensures r.token.kind == Number
    ensures pos <= r.next <= |input| && r.token.text == input[pos..(r.next)]
    ensures forall k :: 0 <= k < |r.token.text| ==> IsDigit(r.token.text[k])
    ensures r.next == |input| || !IsDigit(input[r.next])
    ensures pos < |input| && IsDigit(input[pos]) ==> r.next > pos && WellFormed(r.token)
  {
    var e := RunEnd(input, pos, Digits);
    Read(Token(Number, input[pos..e]), e)
  }

  /** `readIdentifierOrKeyword`: the maximal run of letters and underscores at
      the cursor, a keyword exactly when its text is a reserved word. */
  function ReadIdentifierOrKeyword(input: string, pos: nat): (r: Read)
    requires pos <= |input|
    ensures r.token.kind == Keyword || r.token.kind == Identifier
    ensures r.token.kind == Keyword <==> r.token.text in Keywords
    ensures pos <= r.next <= |input| && r.token.text == input[pos..(r.next)]
    ensures forall k :: 0 <= k < |r.token.text| ==> IsIdentChar(r.token.text[k])
    ensures r.next == |input| || !IsIdentChar(input[r.next])
    ensures pos < |input| && IsIdentChar(input[pos]) ==> r.next > pos && WellFormed(r.token)
  {
    var e := RunEnd(input, pos, Letters);
    var text := input[pos..e];
    Read(Token(if text in Keywords then Keyword else Identifier, text), e)
  }

  /** `readOperator`: the lead character, and the `=` after it when the lead is one of `= ! < >`. */
  function ReadOperator(input: string, pos: nat): (r: Read)
    requires pos < |input|
    ensures r.token.kind == Operator
    ensures r.next == pos + 1 || r.next == pos + 2
    ensures r.next == pos + 2 <==> IsCompoundLead(input[pos]) && pos + 1 < |input| && input[pos + 1] == '='
    ensures r.next <= |input| && r.token.text == input[pos..(r.next)]
    ensures IsOperatorLead(input[pos]) ==> WellFormed(r.token)
  {
    var next := if IsCompoundLead(input[pos]) && pos + 1 < |input| && input[pos + 1] == '=' then pos + 2 else pos + 1;
    Read(Token(Operator, input[pos..next]), next)
  }

  /** `readString`: the text strictly between the quote at the cursor and the
      first later occurrence of the same quote, or the rest of the input when
      there is none. The cursor ends just past the closing quote, or one past
      the end of the input. */
  function ReadString(input: string, pos: nat): (r: Read)
    requires pos < |input|
    ensures r.token.kind == String
    ensures pos + 2 <= r.next <= |input| + 1
    ensures r.token.text == input[pos + 1..(r.next - 1)]
    ensures forall k :: pos < k < r.next - 1 ==> input[k] != input[pos]
    ensures r.next - 1 < |input| ==> input[r.next - 1] == input[pos]
  {
    var close := IndexOf(input, pos + 1, input[pos]);
    Read(Token(String, input[pos + 1..close]), close + 1)
  }

  /** `skipSingleLineComment`: the cursor just past the first newline at or
      after the cursor, or one past the end of the input. */
  function SkipLineComment(input: string, pos: nat): (next: nat)
    requires pos < |input|
    ensures pos < next <= |input| + 1
    ensures forall k :: pos <= k < next - 1 ==> input[k] != '\n'
    ensures next - 1 < |input| ==> input[next - 1] == '\n'
  {
    IndexOf(input, pos, '\n') + 1
  }

  // `skipMultiLineComment`: the cursor just past the first `*/` whose `*`
  // is at or after the cursor (so the search starts at the opening `/`), or
  // two past the end of the input.
  function SkipBlockComment(input: string, pos: nat): (next: nat)
    requires pos < |input|
    ensures pos + 2 <= next <= |input| + 2
    ensures forall k :: pos <= k < next - 2 ==> !ClosesAt(input, k)
    ensures next - 2 < |input| ==> ClosesAt(input, next - 2)
  {
    CloseSearch(input, pos) + 2
  }
}

=== FILE: scanner.dfy ===
/**
  The dispatch loop of `tokenize`: `Step` is one turn of the loop, `Scan` the
  whole loop as a recursion on the cursor, and `Tokenize` the loop itself.
 */
module Scanner {
  import opened Wrappers
  import opened Chars
  import opened Tokens
  import opened Readers

  /** One turn of the loop: skip input, emit a token whose text is the slice
      `input[at..end]`, or stop with the error. */
  datatype Outcome = Skip(next: nat) | Emit(token: Token, at: nat, end: nat, next: nat) | Fail(error: LexError)

  /** `peek`: the character after the cursor, or nothing (the source's `null`)
      when the cursor is on the last character or past it. */
  function Peek(input: string, pos: nat): (r: Option<char>)
    ensures r.Some? <==> pos + 1 < |input|
    ensures r.Some? ==> r.value == input[pos + 1]
  {
    if pos + 1 < |input| then Some(input[pos + 1]) else None
  }

  /** `peek() === c`. */
  predicate PeekIs(input: string, pos: nat, c: char) {
    Peek(input, pos) == Some(c)
  }

  // A `//` or `/*` at the cursor.
  predicate IsCommentStart(input: string, pos: nat)
    requires pos < |input|
  {
    input[pos] == '/' && (PeekIs(input, pos, '/') || PeekIs(input, pos, '*'))
  }

  /** One turn of the loop, trying the character classes in the source's order. */
  function Step(input: string, pos: nat): (s: Outcome)
    requires pos < |input|
    ensures !s.Fail? ==> s.next > pos
    ensures s.Fail? <==> !IsRecognized(input[pos])
    ensures s.Fail? ==> s.error == UnexpectedCharacter(input[pos], pos)
    ensures s.Emit? ==> WellFormed(s.token)
    ensures s.Emit? ==> pos <= s.at <= s.end <= |input| && s.at < s.next && s.end <= s.next
    ensures s.Emit? ==> s.token.text == input[(s.at)..(s.end)]
  {
    var c := input[pos];
    if IsWhitespace(c) then
      Skip(pos + 1)
    else if IsDigit(c) then
      var r := ReadNumber(input, pos);
      Emit(r.token, pos, r.next, r.next)
    else if IsIdentChar(c) then
      var r := ReadIdentifierOrKeyword(input, pos);
      Emit(r.token, pos, r.next, r.next)
    else if c == '/' && PeekIs(input, pos, '/') then
      Skip(SkipLineComment(input, pos))
    else if c == '/' && PeekIs(input, pos, '*') then
      Skip(SkipBlockComment(input, pos))
    else if IsQuote(c) then
      var r := ReadString(input, pos);
      Emit(r.token, pos + 1, r.next - 1, r.next)
    else if IsOperatorLead(c) then
      var r := ReadOperator(input, pos);
      Emit(r.token, pos, r.next, r.next)
    else if IsPunctuation(c) then
      Emit(Token(Punctuation, input[pos..pos + 1]), pos, pos + 1, pos + 1)
    else
      Fail(UnexpectedCharacter(c, pos))
  }

  /** The tokens of `input` from the cursor `pos` on, or the first error. */
  function Scan(input: string, pos: nat): (r: Result<seq<Token>, LexError>)
    ensures r.Success? ==> forall i :: 0 <= i < |r.value| ==> WellFormed(r.value[i])
    ensures r.Failure? ==> pos <= r.error.pos < |input|
    ensures r.Failure? ==> input[r.error.pos] == r.error.ch && !IsRecognized(r.error.ch)
    decreases if pos < |input| then |input| - pos else 0
  {
    if pos >= |input| then
      Success([])
    else
      match Step(input, pos)
      case Skip(next) => Scan(input, next)
      case Emit(t, _, _, next) => Prepend([t], Scan(input, next))
      case Fail(e) => Failure(e)
  }

  /** Puts `ts` in front of the tokens of a successful scan; a failure stays as it is. */
  function Prepend(ts: seq<Token>, r: Result<seq<Token>, LexError>): Result<seq<Token>, LexError> {
    match r
    case Success(rest) => Success(ts + rest)
    case Failure(e) => Failure(e)
  }

  lemma PrependPrepend(a: seq<Token>, b: seq<Token>, r: Result<seq<Token>, LexError>)
    ensures Prepend(a, Prepend(b, r)) == Prepend(a + b, r)
  {
    if r.Success? {
      assert a + (b + r.value) == (a + b) + r.value;
    }
  }

  lemma PrependNothing(r: Result<seq<Token>, LexError>)
    ensures Prepend([], r) == r
  {
    if r.Success? {
      assert [] + r.value == r.value;
    }
  }

  /** `tokenize`: the source's while loop, accumulating tokens until the
      cursor passes the end of the input or a character is not recognized. */
  method Tokenize(input: string) returns (r: Result<seq<Token>, LexError>)
    ensures r == Scan(input, 0)
  {
    var pos: nat := 0;
    var tokens: seq<Token> := [];
    PrependNothing(Scan(input, 0));
    while pos < |input|
      invariant Prepend(tokens, Scan(input, pos)) == Scan(input, 0)
      decreases |input| - pos
    {
      var step := Step(input, pos);
      match step
      case Skip(next) =>
        pos := next;
      case Emit(t, _, _, next) =>
        PrependPrepend(tokens, [t], Scan(input, next));
        tokens := tokens + [t];
        pos := next;
      case Fail(e) =>
        return Failure(e);
    }
    assert tokens + [] == tokens;
    return Success(tokens);
  }
}

=== FILE: scenarios.dfy ===
/** Concrete inputs and the token sequences they scan to. Each lemma names
    its input `s` and fixes it with a precondition. Each proof walks the
    input backwards from its end, one turn of the loop at a time:
    `Scan(s, p) == Success(ts[i..])` says that the tokens from position `p`
    on are the expected ones from index `i` on. */
module Scenarios {
  import opened Wrappers
  import opened Tokens
  import opened Scanner
  import opened Properties

  // The tokens from `pos` on are those of `ts` from index `i` on, once a
  // turn at `pos` emits token `i` and the scan from its next cursor yields the rest.
  lemma EmitsAt(s: string, pos: nat, next: nat, ts: seq<Token>, i: nat)
    requires pos < |s| && i < |ts|
    requires Step(s, pos).Emit? && Step(s, pos).token == ts[i] && Step(s, pos).next == next
    requires Scan(s, next) == Success(ts[i + 1..])
    ensures Scan(s, pos) == Success(ts[i..])
  {
    ScanEmit(s, pos, ts[i + 1..]);
    assert ts[i..] == [ts[i]] + ts[i + 1..];
  }

  // Past the end of the input no token of `ts` remains.
  lemma EndsAt(s: string, pos: nat, ts: seq<Token>)
    requires pos >= |s|
    ensures Scan(s, pos) == Success(ts[|ts|..])
  {
    ScanPastEnd(s, pos);
    assert ts[|ts|..] == [];
  }

  lemma DoubleQuotedString(s: string)
    requires s == "\"hi\""
    ensures Scan(s, 0) == Success([Token(String, "hi")])
  {
    var ts := [Token(String, "hi")];
    assert Scan(s, 0) == Success(ts[0..]) by {
      EndsAt(s, 4, ts);
      StringUpToClosingQuote(s, 0, 3);
      assert s[1..3] == "hi";
      EmitsAt(s, 0, 4, ts, 0);
    }
    assert ts[0..] == ts;
  }

  lemma AtSignIsAnError(s: string)
    requires s == "@"
    ensures Scan(s, 0) == Failure(UnexpectedCharacter('@', 0))
  {
    UnexpectedCharacterAborts(s, 0);
  }

  lemma DigitEndsIdentifier(s: string)
    requires s == "x1"
    ensures Scan(s, 0) == Success([Token(Identifier, "x"), Token(Number, "1")])
  {
    var ts := [Token(Identifier, "x"), Token(Number, "1")];
    assert Scan(s, 0) == Success(ts[0..]) by {
      assert Scan(s, 1) == Success(ts[1..]) by {
        EndsAt(s, 2, ts);
        NumberIsMaximalRun(s, 1, 2);
        assert s[1..2] == "1";
        EmitsAt(s, 1, 2, ts, 1);
      }
      WordIsMaximalRun(s, 0, 1);
      assert s[0..1] == "x";
      EmitsAt(s, 0, 1, ts, 0);
    }
    assert ts[0..] == ts;
  }

  lemma DecimalPointSplitsNumber(s: string)
    requires s == "3.14"
    ensures Scan(s, 0) == Success([Token(Number, "3"), Token(Punctuation, "."), Token(Number, "14")])
  {
    var ts := [Token(Number, "3"), Token(Punctuation, "."), Token(Number, "14")];
    assert Scan(s, 0) == Success(ts[0..]) by {
      PointThenDigits(s, ts);
      NumberIsMaximalRun(s, 0, 1);
      assert s[0..1] == "3";
      EmitsAt(s, 0, 1, ts, 0);
    }
    assert ts[0..] == ts;
  }

  lemma PointThenDigits(s: string, ts: seq<Token>)
    requires s == "3.14"
    requires ts == [Token(Number, "3"), Token(Punctuation, "."), Token(Number, "14")]
    ensures Scan(s, 1) == Success(ts[1..])
  {
    assert Scan(s, 2) == Success(ts[2..]) by {
      EndsAt(s, 4, ts);
      NumberIsMaximalRun(s, 2, 4);
      assert s[2..4] == "14";
      EmitsAt(s, 2, 4, ts, 2);
    }
    PunctuationToken(s, 1);
    EmitsAt(s, 1, 2, ts, 1);
  }

  lemma LogicalAndIsTwoOperators(s: string)
    requires s == "&&"
    ensures Scan(s, 0) == Success([Token(Operator, "&"), Token(Operator, "&")])
  {
    var ts := [Token(Operator, "&"), Token(Operator, "&")];
    assert Scan(s, 0) == Success(ts[0..]) by {
      assert Scan(s, 1) == Success(ts[1..]) by {
        EndsAt(s, 2, ts);
        OperatorLength(s, 1);
        EmitsAt(s, 1, 2, ts, 1);
      }
      OperatorLength(s, 0);
      EmitsAt(s, 0, 1, ts, 0);
    }
    assert ts[0..] == ts;
  }

  lemma EqualityIsOneOperator(s: string)
    requires s == "=="
    ensures Scan(s, 0) == Success([Token(Operator, "==")])
  {
    var ts := [Token(Operator, "==")];
    assert Scan(s, 0) == Success(ts[0..]) by {
      EndsAt(s, 2, ts);
      OperatorLength(s, 0);
      EmitsAt(s, 0, 2, ts, 0);
    }
    assert ts[0..] == ts;
  }

  lemma ReservedWordIsKeyword(s: string)
    requires s == "let;"
    ensures Scan(s, 0) == Success([Token(Keyword, "let"), Token(Punctuation, ";")])
  {
    var ts := [Token(Keyword, "let"), Token(Punctuation, ";")];
    assert Scan(s, 3) == Success(ts[1..]) by {
      EndsAt(s, 4, ts);
      PunctuationToken(s, 3);
      EmitsAt(s, 3, 4, ts, 1);
    }
    assert Step(s, 0) == Emit(ts[0], 0, 3, 3) by {
      assert s[0] == 'l' && s[1] == 'e' && s[2] == 't' && s[3] == ';';
      WordIsMaximalRun(s, 0, 3);
      assert s[0..3] == "let";
    }
    EmitsAt(s, 0, 3, ts, 0);
    assert ts[0..] == ts;
  }

  lemma TrailingSlashIsDivision(s: string)
    requires s == "1/"
    ensures Scan(s, 0) == Success([Token(Number, "1"), Token(Operator, "/")])
  {
    var ts := [Token(Number, "1"), Token(Operator, "/")];
    assert Scan(s, 0) == Success(ts[0..]) by {
      assert Scan(s, 1) == Success(ts[1..]) by {
        EndsAt(s, 2, ts);
        LoneSlash(s, 1);
        EmitsAt(s, 1, 2, ts, 1);
      }
      NumberIsMaximalRun(s, 0, 1);
      assert s[0..1] == "1";
      EmitsAt(s, 0, 1, ts, 0);
    }
    assert ts[0..] == ts;
  }

  lemma SlashStarSlashThenCode(s: string)
    requires s == "/*/x;"
    ensures Scan(s, 0) == Success([Token(Identifier, "x"), Token(Punctuation, ";")])
  {
    IdentifierThenSemicolon(s, 3);
    SlashStarSlashIsComment(s, 0);
  }

  lemma CommentThenCode(s: string)
    requires s == "// note\nx;"
    ensures Scan(s, 0) == Success([Token(Identifier, "x"), Token(Punctuation, ";")])
  {
    IdentifierThenSemicolon(s, 8);
    LineCommentResumesAfterNewline(s, 0, 7);
  }

  // The input ends with `x;` at `p`.
  lemma IdentifierThenSemicolon(s: string, p: nat)
    requires p + 2 == |s| && s[p] == 'x' && s[p + 1] == ';'
    ensures Scan(s, p) == Success([Token(Identifier, "x"), Token(Punctuation, ";")])
  {
    SemicolonEnds(s, p + 1);
    assert Step(s, p) == Emit(Token(Identifier, "x"), p, p + 1, p + 1) by {
      WordIsMaximalRun(s, p, p + 1);
      assert s[p..p + 1] == "x";
    }
    ScanEmit(s, p, [Token(Punctuation, ";")]);
    assert [Token(Identifier, "x")] + [Token(Punctuation, ";")] == [Token(Identifier, "x"), Token(Punctuation, ";")];
  }

  // The input ends with `;` at `q`.
  lemma SemicolonEnds(s: string, q: nat)
    requires q + 1 == |s| && s[q] == ';'
    ensures Scan(s, q) == Success([Token(Punctuation, ";")])
  {
    ScanPastEnd(s, q + 1);
    PunctuationToken(s, q);
    ScanEmit(s, q, []);
    assert [Token(Punctuation, [s[q]])] + [] == [Token(Punctuation, ";")];
  }

  /** A short declaration: keyword, identifier, operator, number and
      punctuation, with the spaces between them skipped. */
  lemma DeclarationTokens(s: string)
    requires s == "let x = 42;"
    ensures Scan(s, 0) == Success([Token(Keyword, "let"), Token(Identifier, "x"), Token(Operator, "="),
                                   Token(Number, "42"), Token(Punctuation, ";")])
  {
    var ts := [Token(Keyword, "let"), Token(Identifier, "x"), Token(Operator, "="),
               Token(Number, "42"), Token(Punctuation, ";")];
    DeclarationStart(s, ts);
    assert ts[0..] == ts;
  }

  lemma DeclarationStart(s: string, ts: seq<Token>)
    requires s == "let x = 42;"
    requires ts == [Token(Keyword, "let"), Token(Identifier, "x"), Token(Operator, "="),
                    Token(Number, "42"), Token(Punctuation, ";")]
    ensures Scan(s, 0) == Success(ts[0..])
  {
    assert Scan(s, 3) == Success(ts[1..]) by {
      DeclarationMiddle(s, ts);
      WhitespaceSkipped(s, 3);
    }
    assert Step(s, 0) == Emit(ts[0], 0, 3, 3) by {
      assert s[0] == 'l' && s[1] == 'e' && s[2] == 't' && s[3] == ' ';
      WordIsMaximalRun(s, 0, 3);
      assert s[0..3] == "let";
    }
    EmitsAt(s, 0, 3, ts, 0);
  }

  lemma DeclarationMiddle(s: string, ts: seq<Token>)
    requires s == "let x = 42;"
    requires ts == [Token(Keyword, "let"), Token(Identifier, "x"), Token(Operator, "="),
                    Token(Number, "42"), Token(Punctuation, ";")]
    ensures Scan(s, 4) == Success(ts[1..])
  {
    assert Scan(s, 5) == Success(ts[2..]) by {
      DeclarationOperator(s, ts);
      WhitespaceSkipped(s, 5);
    }
    assert Step(s, 4) == Emit(ts[1], 4, 5, 5) by {
      assert s[4] == 'x' && s[5] == ' ';
      WordIsMaximalRun(s, 4, 5);
      assert s[4..5] == "x";
    }
    EmitsAt(s, 4, 5, ts, 1);
  }

  lemma DeclarationOperator(s: string, ts: seq<Token>)
    requires s == "let x = 42;"
    requires ts == [Token(Keyword, "let"), Token(Identifier, "x"), Token(Operator, "="),
                    Token(Number, "42"), Token(Punctuation, ";")]
    ensures Scan(s, 6) == Success(ts[2..])
  {
    assert Scan(s, 7) == Success(ts[3..]) by {
      DeclarationEnd(s, ts);
      WhitespaceSkipped(s, 7);
    }
    assert Step(s, 6) == Emit(ts[2], 6, 7, 7) by {
      assert s[6] == '=' && s[7] == ' ';
      OperatorLength(s, 6);
    }
    EmitsAt(s, 6, 7, ts, 2);
  }

  lemma DeclarationEnd(s: string, ts: seq<Token>)
    requires s == "let x = 42;"
    requires ts == [Token(Keyword, "let"), Token(Identifier, "x"), Token(Operator, "="),
                    Token(Number, "42"), Token(Punctuation, ";")]
    ensures Scan(s, 8) == Success(ts[3..])
  {
    assert Scan(s, 10) == Success(ts[4..]) by {
      EndsAt(s, 11, ts);
      PunctuationToken(s, 10);
      EmitsAt(s, 10, 11, ts, 4);
    }
    assert Step(s, 8) == Emit(ts[3], 8, 10, 10) by {
      assert s[8] == '4' && s[9] == '2' && s[10] == ';';
      NumberIsMaximalRun(s, 8, 10);
      assert s[8..10] == "42";
    }
    EmitsAt(s, 8, 10, ts, 3);
  }
}

=== FILE: tokens.dfy ===
/** Tokens, the keyword set and the one error kind of the lexer. */
module Tokens {
  import opened Chars

  datatype Kind = Number | Identifier | Keyword | String | Operator | Punctuation

  /** A token: its kind and the exact, unprocessed text it was built from. */
  datatype Token = Token(kind: Kind, text: string)

  /** The reserved words; an identifier-shaped lexeme is a keyword exactly when it is one of them. */
  const Keywords: set<string> := {"if", "else", "for", "while", "return", "function", "var", "let", "const"}

  /** The fatal error: the character the dispatch loop could not classify, and where it stands. */
  datatype LexError = UnexpectedCharacter(ch: char, pos: nat)

  /** What every token the lexer can emit looks like, judged from the token alone. */
  predicate WellFormed(t: Token) {
    match t.kind
    case Number =>
      |t.text| > 0 && forall k :: 0 <= k < |t.text| ==> IsDigit(t.text[k])
    case Identifier =>
      |t.text| > 0 && (forall k :: 0 <= k < |t.text| ==> IsIdentChar(t.text[k])) && t.text !in Keywords
    case Keyword =>
      t.text in Keywords
    case String =>
      true
    case Operator =>
      || (|t.text| == 1 && IsOperatorLead(t.text[0]))
      || (|t.text| == 2 && IsCompoundLead(t.text[0]) && t.text[1] == '=')
    case Punctuation =>
      |t.text| == 1 && IsPunctuation(t.text[0])
  }
}

=== FILE: wrappers.dfy ===
/** The optional and the success-or-failure values of the model. */
module Wrappers {

  /** A value that may be absent. */
  datatype Option<+T> = None | Some(value: T)

  /** The outcome of an operation that either yields a value or stops with an error. */
  datatype Result<+T, +E> = Success(value: T) | Failure(error: E)
}
